=== FILE: README.md ===
# jsAutoComplete in Dafny

A model of the completion engine of jsAutoComplete (`lib/functions.js`), a
browser helper that attaches a suggestion box to textareas. While a textarea
has focus, every caret change recomputes the box:

- the word under the caret is cut out at a fixed set of delimiters;
- the registered candidates that start with the same character and contain
  the word are listed;
- the box is anchored one line below the caret, which takes measuring
  wrapped lines in pixels.

While the box is open, Up, Down/Space, Enter and Escape drive it instead of
the textarea. Enter, or a mousedown on an item, inserts the rest of the
chosen candidate at the end of the word.

The modules follow the source's functions:

- `Wrappers`: the `Option` type.
- `JsString`: the JavaScript primitives the engine relies on:
  `String.prototype.trim` with ECMA-262 whitespace, `indexOf`, and `replace`
  with a string pattern.
- `RegexSplit`: `split` and the match count of `match` for the two regular
  expressions of the source. These are the line-break expression
  `/\r\n|\r|\n/` and the word-delimiter expression; `\r\n` counts as a single
  match.
- `CandidateStore`: `addSuggestion` and the constructor's registration loop.
  The candidates are a map from a first character to a bucket of strings.
  The key `None` stands for the property "undefined".
- `Tokenizer`: `setSearchStr` with the `setTargetStr` callback. It returns
  the word under the caret as two halves, before and after the caret.
- `Matcher`: `setSuggestions`. It returns a list of `{suggest, comp}` items,
  where `comp` is the positional remainder.
- `CaretGeometry`: `setPos` and `measureString2`.
- `Navigation`: the engine around one focused textarea.
  - The suggestion box is `Closed` or `Open` with a highlighted index.
  - Keydown interception is `priventTextareaEventForSuggetionBox`.
  - The recompute is `onMoveSelection`.
  - Opening and closing the box are `displaySuggestionBox` and
    `removeSuggestionBox`.
  - The window's keyup handler is `addEventForSuggestionBoxOnKeyup`.
  - Committing an item is `decidedSuggestionItem`.
  - `Step` dispatches one browser event to these handlers, in the order the
    browser delivers it.

Text is modelled as sequences of characters. The browser, the DOM and the
measurement of rendered text become parameters:

- a `Surface` holds the textarea's value, its caret and its metrics;
- a `Measurer` is `NotReady`, which measures -1, or a pixel-width function.

## Model

| member | source | states |
|---|---|---|
| JsString.TrimKeepsMiddle | lib/functions.js:193 | trimming keeps one contiguous slice of the input and removes only JavaScript whitespace before and after it; the kept slice neither starts nor ends with whitespace |
| JsString.TrimEmptyIffAllSpace | lib/functions.js:193 | trimming gives the empty string exactly when the input is whitespace only |
| JsString.IndexOfIsFirstOccurrence | lib/functions.js:260 | `indexOf` returns an index where the token occurs and no earlier such index; -1 means the token occurs nowhere |
| JsString.RemoveFirstOfPrefix | lib/functions.js:243 | removing the first occurrence of the text before the caret leaves exactly the text from the caret on |
| RegexSplit.SplitRejoins | lib/functions.js:244-245 | the segments of `split`, rejoined with the text of the matches between them, give back the input; each separator is exactly one match (with `\r\n` one match), and there are as many as `match` counts |
| RegexSplit.SplitFirst | lib/functions.js:245 | the first segment is the longest delimiter-free prefix: it ends at the first delimiter or at the end |
| RegexSplit.SplitLast | lib/functions.js:244 | the last segment is the longest delimiter-free suffix: it reaches back to a delimiter or the start |
| RegexSplit.SplitCount | lib/functions.js:222-224 | splitting at line breaks yields one segment more than `match` counts line breaks, with `\r\n` counted once |
| CandidateStore.AddSuggestion | lib/functions.js:191-199 | a non-string or empty argument leaves the store unchanged; otherwise the trimmed string is appended at the end of its first character's bucket, which is created when missing, and every other bucket is unchanged |
| CandidateStore.WhitespaceOnlyIsStoredUndefined | lib/functions.js:192-196 | an accepted string goes to the "undefined" bucket exactly when it is whitespace only, because the emptiness check runs before the trim |
| CandidateStore.AddSuggestionKeepsWellFormed | lib/functions.js:191-199 | after `addSuggestion` every entry is trimmed and sits in the bucket of its own first character |
| CandidateStore.InitStore | lib/functions.js:47-49 | registering the constructor's initial candidates in order gives a store in which every entry is trimmed and filed under its first character |
| CandidateStore.InitStoreFilesInOrder | lib/functions.js:47-49 | after the constructor's loop, the bucket of every key holds exactly the trimmed accepted arguments filed under that key, in argument order, and a key is present only when some argument was filed under it |
| Tokenizer.AfterCaret | lib/functions.js:242-243 | the source's removal of the text before the caret yields exactly the suffix from the caret on |
| Tokenizer.TokenizeIsToken | lib/functions.js:239-249 | the `before` half is delimiter-free, ends at the caret and reaches back to a delimiter or the start; the `after` half is delimiter-free, starts at the caret and reaches forward to a delimiter or the end |
| Tokenizer.TokenIsUnique | lib/functions.js:239-249 | at most one pair of halves fits that description, so it defines the token independently of how the splits compute it |
| Tokenizer.TokenTextIsSlice | lib/functions.js:160-162 | `target_str` is one contiguous slice of the text around the caret |
| Tokenizer.DelimiterAtCaretEmptiesToken | lib/functions.js:240 | a delimiter just before the caret empties the `before` half; a delimiter at the caret empties the `after` half |
| Tokenizer.WordBeforeDelimiterIsToken | lib/functions.js:239-249 | a delimiter-free word that starts the text or follows a delimiter, and ends at the caret before a delimiter or the end, is the token |
| Matcher.MatchesAreKeptEntriesInOrder | lib/functions.js:256-268 | an entry is listed exactly when it is in the bucket of the token's first character, contains the token and differs from it; it is listed as often as the bucket holds it, in bucket order |
| Matcher.EmptyTokenMatchesNothing | lib/functions.js:258-260 | an empty token lists nothing: its bucket holds only empty strings, and an entry equal to the token is excluded |
| Matcher.RemainderCompletesPrefix | lib/functions.js:261 | when the token starts the entry, token followed by remainder spells the entry |
| Matcher.RemainderMissesElsewhere | lib/functions.js:260-261 | for every listed entry that does not start with the token, the token followed by the remainder is not the entry |
| Matcher.PositionalRemainderQuirk | lib/functions.js:260-261 | an example of such an entry: with the token `ab`, the entry `aab` is listed, with the remainder `b`, and `ab` followed by `b` is not `aab` |
| Matcher.RegisteredIsOffered | lib/functions.js:195-198 | a registered string is listed, last and with its correct remainder, for every non-empty token that is a proper prefix of it |
| Matcher.MatchesOfHel | lib/functions.js:256-268 | with `hello`, `help` and `world` registered, `hel` lists `hello` then `help`, with remainders `lo` and `p` |
| CaretGeometry.SpacesToA | lib/functions.js:467 | every space becomes `a` and every other character is kept, so the measured text holds no space |
| CaretGeometry.MeasureString | lib/functions.js:463-483 | the measurement is -1 exactly when it is not ready, and otherwise a width of at least 0 |
| CaretGeometry.SpaceMeasuresAsA | lib/functions.js:467 | a ready measurement is of the text with every space replaced by `a`: a string measures the same as that replacement of it, so spaces get a visible width |
| CaretGeometry.SpacesAndAMeasureAlike | lib/functions.js:467 | two strings that differ only where one has a space and the other an `a` have the same measured width |
| CaretGeometry.Locate | lib/functions.js:205-231 | the box's x is the caret line's width modulo the client width, past the left offset; its y is one line below the caret's visual row |
| CaretGeometry.WrapsPlusBreaksIsCaretRow | lib/functions.js:214-224 | summing every line's soft wraps and adding the hard breaks gives the caret's visual row: every earlier line counts its wraps plus one row, and the caret's own line counts its wraps |
| CaretGeometry.CaretRowCountsHardBreaks | lib/functions.js:222-224 | with a ready measurement the caret row is at least the number of hard breaks before it |
| CaretGeometry.AsWrittenAgreesAfterFirstCharacter | lib/functions.js:209-210 | the placement as written and the corrected one agree at every caret past the first character |
| CaretGeometry.SlicePrefix | lib/functions.js:210 | taking the text from the start up to `end` gives a prefix of length `end` for a non-negative end (capped at the length), and for a negative end counts back from the end of the text, down to the empty string |
| CaretGeometry.AsWrittenMisplacesCaretAtStart | lib/functions.js:210 | as written, a caret at the start of `"a\nb"` puts the box at least two lines below the top instead of one |
| CaretGeometry.CaretAtStartPlacement | lib/functions.js:210 | corrected, a caret at the start puts the box at the left edge one line below the top |
| Navigation.RecomputeOpensOnKeptEntry | lib/functions.js:146-157 | a recompute opens the box exactly when the token's bucket holds an entry that contains the token and is not the token |
| Navigation.BoxKeyDownKeepsText | lib/functions.js:171-184 | while the box is open a box key's keydown changes nothing: the browser's default action is prevented |
| Navigation.BoxKeyUpSkipsRecompute | lib/functions.js:146-184 | while the box is open a box key's keyup skips the recompute and only the box's handler acts |
| Navigation.OtherKeyUpRecomputes | lib/functions.js:146-157 | the keyup of a key other than Up, Down, Space, Enter and Escape keeps the text and rebuilds the box: open exactly when there are matches, holding those matches with the first highlighted |
| Navigation.WindowKeyUp | lib/functions.js:378-411 | Up moves the highlight back and Down or Space forward, staying put at either end; Enter commits the highlighted item and closes; Escape closes; other keys and a closed box change nothing |
| Navigation.EscapeClosesOnly | lib/functions.js:396-397 | Escape on an open box closes it and changes nothing else |
| Navigation.EnterCommitsHighlighted | lib/functions.js:394-397 | Enter on an open box commits the highlighted item, then closes the box |
| Navigation.DownWhileClosedHighlightsSecond | lib/functions.js:342-357 | a Down or Space keyup with the box closed and matches present opens the box and, in the same event, moves the highlight to the second match, or keeps it on the only one |
| Navigation.EnterWhileClosedCommitsFirstMatch | lib/functions.js:342-357 | an Enter keyup with the box closed and matches present opens the box and, in the same event, commits the first match and closes it |
| Navigation.HighlightClampsAtBothEnds | lib/functions.js:404-410 | with three items, Up on the first stays on the first, and three Downs stop at the last |
| Navigation.InsertText | lib/functions.js:424 | inserting at a collapsed caret splices the text in there, keeps the text before and after, and leaves the caret after the insertion |
| Navigation.CommitSplicesAtWordEnd | lib/functions.js:419-426 | a commit inserts the remainder at the end of the word, which is a delimiter or the end of the text; the text around the insertion is unchanged and the caret ends after it |
| Navigation.CommitCompletesWord | lib/functions.js:419-426 | when the token starts the chosen entry, after the commit the text from the word's start to the caret is that entry |
| Navigation.CommitOfHelWorld | lib/functions.js:419-426 | committing `lo` with the caret after `hel` in `"hel world"` gives `"hello world"`, with the caret after `hello` |
| Navigation.Step | lib/functions.js:102-138 | every handler keeps the engine valid: a well-formed store, a highlight inside the list, and no open box without a focused textarea |
| Navigation.Initial | lib/functions.js:47-49 | the constructed engine has a well-formed store, no focus and a closed box |

## Left out

- Text is modelled as code points. The source keys buckets, measures lengths
  and slices by UTF-16 code unit, which gives different results for
  characters outside the Basic Multilingual Plane.
- The DOM is left out: element creation and removal, listener registration
  (`init`, `initTargetAll`), styles and `isElement`. `Step` keeps only each
  handler's effect on the engine state.
- `measureString2`: a `Measurer` abstracts the off-screen span and the
  computed font. Its readiness is fixed for the engine's lifetime. In the
  source it flips from not ready to ready on `DOMContentLoaded`
  (lib/functions.js:457-461), and that event is not modelled.
- The measurement's -1 is modelled as the code treats it. `setPos` never
  checks for it, so it flows into the arithmetic and the box is placed
  anyway, although `measureString2` documents -1 as a failed measurement
  (lib/functions.js:434).
- CaretGeometry.Locate: requires a positive client width. The source divides
  by `clientWidth` regardless, and a zero width gives NaN or Infinity, which
  the model does not represent.
- CaretGeometry.Locate: the line height is an integer parameter. The source
  computes `clientHeight / rows`, which may be fractional, and applies
  `Math.floor` to the sum (lib/functions.js:207, 227-228). The model drops
  that rounding.
- Navigation.Recompute: places the box with the corrected `LocateCaret` and
  not with `setPos` as written. The two differ only at caret 0 (see
  Findings); `LocateCaretAsWritten` models the written code.
- Navigation.InsertText: the caret is collapsed (`selectionStart` only).
  `execCommand('insertText')` replaces a non-empty selection
  (lib/functions.js:422-424), which the model does not represent. For the same
  reason, CommitSplicesAtWordEnd holds only for a collapsed caret.
- Navigation.Step: a `Focus` event while the box is open is not excluded.
  In the source, `onFocus` calls `onMoveSelection()` with no event
  (lib/functions.js:120), and with the box open the interception test reads
  `e.keyCode` of `undefined` and throws (lib/functions.js:173). The model
  recomputes instead. In a browser the previous textarea's blur always comes
  first and closes the box, so the case does not arise.
- Navigation.Step: `PickItem` commits but leaves the box open until the blur
  that follows. The mousedown/blur race and the refocusing in
  `onMousedownForSuggestItem` (lib/functions.js:295-310) are not modelled.
- The undo stack of `execCommand` is not modelled.
- The rendering of the box (`createSuggestionBox`, `createSuggestionItem`)
  is not modelled beyond the items it lists and the highlight.

## Findings

| source | as written | input that shows it | evidently intended | confidence | as-written member | corrected member |
|---|---|---|---|---|---|---|
| lib/functions.js:210 | `value.slice(0, selectionStart - 1)` | caret 0 in `"a\nb"`: the end -1 selects `"a\n"`, whose hard break puts the box at least one row too low | measure the empty prefix at caret 0 | high (not executed) | CaretGeometry.AsWrittenMisplacesCaretAtStart | CaretGeometry.CaretAtStartPlacement |

The rest of the model uses the corrected `LocateCaret`, whose caret-0
placement `CaretAtStartPlacement` proves.

Another behaviour follows from the listener order. The keyup listener of
the textarea runs before the window's. When a box key is released while
the box is closed, the recompute can open the box, and that registers the
window's keyup listener (lib/functions.js:356). The window's listener then
handles the same keyup:

- Enter commits the first match at once
  (`EnterWhileClosedCommitsFirstMatch`);
- Down or Space moves the highlight to the second match
  (`DownWhileClosedHighlightsSecond`).

The source shows no sign that this is unintended, so it is modelled as
written and not corrected.

The `''` check of `addSuggestion` runs before the trim
(lib/functions.js:192-193), so a whitespace-only string is stored, trimmed
to `""`, under "undefined".
`WhitespaceOnlyIsStoredUndefined` states this. `EmptyTokenMatchesNothing`
shows that such entries are never offered.

=== FILE: candidate_store.dfy ===
/** The candidate dictionary (`all_suggestions`): registered strings grouped
    by their first character, in registration order, duplicates kept. */
module CandidateStore {
  import opened Wrappers
  import opened JsString

  /** An argument passed to `addSuggestion`: a JavaScript string, or any
      value of another type. */
  datatype Arg = Str(s: string) | NonString

  /** Buckets keyed by the first character of their entries. The key of the
      empty string is `None`: `""[0]` is `undefined`, which becomes the
      property name "undefined" of the dictionary object. */
  type Store = map<Option<char>, seq<string>>

  /** `s[0]` as a property key. */
  function FirstKey(s: string): (k: Option<char>)
    ensures k.None? <==> s == []
    ensures k.Some? ==> k.value == s[0]
  {
    if s == [] then None else Some(s[0])
  }

  /** The bucket stored under `k`, or the fresh empty bucket `[]` that
      `addSuggestion` creates when there is none. */
  function Bucket(store: Store, k: Option<char>): seq<string> {
    if k in store then store[k] else []
  }

  /** Every entry sits in the bucket of its own first character, and every
      entry is already trimmed. */
  ghost predicate WellFormed(store: Store) {
    forall k, i :: k in store && 0 <= i < |store[k]| ==>
      FirstKey(store[k][i]) == k && IsTrimmed(store[k][i])
  }

  /** True when `addSuggestion` rejects the argument: it is not a string, or
      it is the empty string. The check runs before trimming. */
  predicate Rejected(arg: Arg) {
    !arg.Str? || arg.s == ""
  }

  /** `addSuggestion(arg)`: a rejected argument leaves the store unchanged;
      any other argument is trimmed and appended at the end of the bucket of
      its first character, and every other bucket stays as it was. A
      whitespace-only string passes the check and is stored, trimmed to "",
      under the `None` key. */
  function AddSuggestion(store: Store, arg: Arg): (r: Store)
    ensures Rejected(arg) ==> r == store
    ensures !Rejected(arg) ==>
      var t := Trim(arg.s);
      && FirstKey(t) in r
      && r[FirstKey(t)] == Bucket(store, FirstKey(t)) + [t]
      && (forall k :: k != FirstKey(t) ==> (k in r <==> k in store))
      && (forall k :: k != FirstKey(t) && k in store ==> r[k] == store[k])
  {
    if Rejected(arg) then store else Append(store, Trim(arg.s))
  }

  /** The store with `t` appended at the end of the bucket of its first
      character, every other bucket as it was. */
  function Append(store: Store, t: string): (r: Store)
    ensures FirstKey(t) in r && r[FirstKey(t)] == Bucket(store, FirstKey(t)) + [t]
    ensures forall k :: k != FirstKey(t) ==> (k in r <==> k in store)
    ensures forall k :: k != FirstKey(t) && k in store ==> r[k] == store[k]
  {
    store[FirstKey(t) := Bucket(store, FirstKey(t)) + [t]]
  }

  /** An accepted string goes under the `None` key, the "undefined" bucket,
      exactly when it is whitespace only: the emptiness check runs before
      the trim. */
  lemma WhitespaceOnlyIsStoredUndefined(store: Store, arg: Arg)
    requires !Rejected(arg)
    ensures FirstKey(Trim(arg.s)) in AddSuggestion(store, arg)
    ensures FirstKey(Trim(arg.s)) == None <==> AllSpace(arg.s)
  {
    TrimEmptyIffAllSpace(arg.s);
  }

  /** `addSuggestion` keeps every entry in the bucket of its first character. */
  lemma {:induction false} AddSuggestionKeepsWellFormed(store: Store, arg: Arg)
    requires WellFormed(store)
    ensures WellFormed(AddSuggestion(store, arg))
  {
    if !Rejected(arg) {
      var t := Trim(arg.s);
      var r := AddSuggestion(store, arg);
      forall k, i | k in r && 0 <= i < |r[k]|
        ensures FirstKey(r[k][i]) == k && IsTrimmed(r[k][i])
      {
        if k == FirstKey(t) && i == |r[k]| - 1 {
          assert r[k][i] == t;
        } else {
          assert r[k][i] == store[k][i];
        }
      }
    }
  }

  /** The constructor's loop over `suggest_strs`: every argument is passed to
      `addSuggestion` in order, starting from the empty dictionary. */
  function InitStore(args: seq<Arg>): (r: Store)
    ensures WellFormed(r)
    decreases |args|
  {
    if args == [] then map[]
    else
      var previous := InitStore(args[..|args| - 1]);
      AddSuggestionKeepsWellFormed(previous, args[|args| - 1]);
      AddSuggestion(previous, args[|args| - 1])
  }

  /** What one argument adds to the bucket of `k`: its trimmed text when
      `addSuggestion` accepts it and files it under `k`, nothing otherwise. */
  function Contribution(a: Arg, k: Option<char>): seq<string> {
    if !Rejected(a) && FirstKey(Trim(a.s)) == k then [Trim(a.s)] else []
  }

  /** The trimmed accepted arguments filed under `k`, in argument order. */
  function Registered(args: seq<Arg>, k: Option<char>): seq<string>
    decreases |args|
  {
    if args == [] then [] else Contribution(args[0], k) + Registered(args[1..], k)
  }

  /** `addSuggestion` adds the argument's contribution at the end of every
      bucket, and a key is present afterwards exactly when it was before or
      the argument was filed under it. */
  lemma BucketAfterAdd(store: Store, a: Arg, k: Option<char>)
    ensures Bucket(AddSuggestion(store, a), k) == Bucket(store, k) + Contribution(a, k)
    ensures k in AddSuggestion(store, a) <==> k in store || Contribution(a, k) != []
  {
    if Rejected(a) {
      assert AddSuggestion(store, a) == store && Contribution(a, k) == [];
    } else {
      var t := Trim(a.s);
      assert AddSuggestion(store, a) == Append(store, t);
      assert Contribution(a, k) == if FirstKey(t) == k then [t] else [];
      AppendBucket(store, t, k);
    }
  }

  /** `Append` adds `t` to the bucket of `k` exactly when `k` is its key. */
  lemma AppendBucket(store: Store, t: string, k: Option<char>)
    ensures Bucket(Append(store, t), k) == Bucket(store, k) + (if FirstKey(t) == k then [t] else [])
    ensures k in Append(store, t) <==> k in store || FirstKey(t) == k
  {
  }

  lemma {:induction false} RegisteredSnoc(args: seq<Arg>, a: Arg, k: Option<char>)
    ensures Registered(args + [a], k) == Registered(args, k) + Contribution(a, k)
    decreases |args|
  {
    if args == [] {
      assert Registered([a][1..], k) == [];
    } else {
      assert (args + [a])[0] == args[0];
      assert (args + [a])[1..] == args[1..] + [a];
      RegisteredSnoc(args[1..], a, k);
    }
  }

  /** After the constructor's loop, the bucket of every key holds exactly
      the trimmed accepted arguments filed under it, in argument order, and
      only keys with some such argument are present. */
  lemma {:induction false} InitStoreFilesInOrder(args: seq<Arg>, k: Option<char>)
    ensures Bucket(InitStore(args), k) == Registered(args, k)
    ensures k in InitStore(args) <==> Registered(args, k) != []
    decreases |args|
  {
    if args != [] {
      var previous, last := args[..|args| - 1], args[|args| - 1];
      InitStoreFilesInOrder(previous, k);
      assert args == previous + [last];
      RegisteredSnoc(previous, last, k);
      BucketAfterAdd(InitStore(previous), last, k);
    }
  }
}

=== FILE: caret_geometry.dfy ===
/** The caret geometry of `setPos`: where, in pixels, the suggestion box is
    anchored below the caret of a textarea whose lines wrap softly at its
    client width. */
module CaretGeometry {
  import opened RegexSplit

  /** `measureString2(str, elem, true)`: `NotReady` before the page has
      loaded, when the measurement returns -1; otherwise the rendered width,
      in whole pixels, of a string in the textarea's font. */
  datatype Measurer = NotReady | Ready(width: string -> nat)

  /** The textarea metrics `setPos` reads: `clientWidth`, the line height
      (`clientHeight / rows`), `offsetLeft` and `offsetTop`. */
  datatype Box = Box(clientWidth: int, lineHeight: int, offsetLeft: int, offsetTop: int)

  /** Pixel coordinates of the suggestion box (`pos_x`, `pos_y`). */
  datatype Point = Point(x: int, y: int)

  /** The global replacement of spaces by `a` in `measureString2`: every
      space becomes `a`, so that spaces are measured with a visible width.
      Nothing else changes. */
  function SpacesToA(s: string): (r: string)
    ensures |r| == |s|
    ensures forall i :: 0 <= i < |s| ==> r[i] == (if s[i] == ' ' then 'a' else s[i])
    ensures ' ' !in r
    decreases |s|
  {
    if s == [] then []
    else [if s[0] == ' ' then 'a' else s[0]] + SpacesToA(s[1..])
  }

  /** The measured width of a line, or -1 when the measurement is not ready;
      spaces are measured as `a`. */
  function MeasureString(m: Measurer, s: string): (w: int)
    ensures w >= -1
    ensures m.NotReady? <==> w == -1
  {
    match m
    case NotReady => -1
    case Ready(width) => width(SpacesToA(s))
  }

  /** Replacing spaces a second time changes nothing. */
  lemma SpacesToAIdempotent(s: string)
    ensures SpacesToA(SpacesToA(s)) == SpacesToA(s)
  {
  }

  /** A space is measured as an `a`: a string measures the same as the
      string with its spaces already replaced by `a`. */
  lemma SpaceMeasuresAsA(m: Measurer, s: string)
    ensures MeasureString(m, SpacesToA(s)) == MeasureString(m, s)
  {
    SpacesToAIdempotent(s);
  }

  /** Two strings that differ only where one has a space and the other an
      `a` measure the same. */
  lemma SpacesAndAMeasureAlike(m: Measurer, s: string, t: string)
    requires |s| == |t|
    requires forall i :: 0 <= i < |s| ==>
      s[i] == t[i] || (s[i] in " a" && t[i] in " a")
    ensures MeasureString(m, s) == MeasureString(m, t)
  {
    assert SpacesToA(s) == SpacesToA(t);
  }

  /** The floored quotient of each line's width by the client width, summed
      over `lines`: the soft wraps inside those lines. */
  function WrapRows(m: Measurer, lines: seq<string>, width: int): int
    requires width > 0
    decreases |lines|
  {
    if lines == [] then 0
    else WrapRows(m, lines[..|lines| - 1], width) + MeasureString(m, lines[|lines| - 1]) / width
  }

  /** The visual rows `lines` occupy when each is followed by a hard break:
      its soft wraps plus the row it ends on. */
  function RowsOccupied(m: Measurer, lines: seq<string>, width: int): int
    requires width > 0
    decreases |lines|
  {
    if lines == [] then 0
    else RowsOccupied(m, lines[..|lines| - 1], width) + MeasureString(m, lines[|lines| - 1]) / width + 1
  }

  /** The width of the caret's own logical line. */
  function LastLineWidth(m: Measurer, prefix: string): int {
    MeasureString(m, Last(Split(LineBreaks, prefix)))
  }

  /** The visual row of the caret: all rows of the logical lines before its
      own, plus the soft wraps of its own line before it. */
  function CaretRow(m: Measurer, prefix: string, width: int): int
    requires width > 0
  {
    var lines := Split(LineBreaks, prefix);
    RowsOccupied(m, lines[..|lines| - 1], width) + LastLineWidth(m, prefix) / width
  }

  /** Counting the soft wraps of every line and adding the hard breaks
      counts the rows each line occupies. */
  lemma {:induction false} RowsOccupiedIsWrapsPlusLines(m: Measurer, lines: seq<string>, width: int)
    requires width > 0
    ensures RowsOccupied(m, lines, width) == WrapRows(m, lines, width) + |lines|
    decreases |lines|
  {
    if lines != [] {
      RowsOccupiedIsWrapsPlusLines(m, lines[..|lines| - 1], width);
    }
  }

  /** With a ready measurement every line before the caret's occupies at
      least one row, so the caret row is at least the number of hard breaks. */
  lemma {:induction false} CaretRowCountsHardBreaks(m: Measurer, prefix: string, width: int)
    requires width > 0 && m.Ready?
    ensures CaretRow(m, prefix, width) >= MatchCount(LineBreaks, prefix)
  {
    var lines := Split(LineBreaks, prefix);
    var before := lines[..|lines| - 1];
    var w := LastLineWidth(m, prefix);
    assert CaretRow(m, prefix, width) == RowsOccupied(m, before, width) + w / width;
    SplitCount(LineBreaks, prefix);
    RowsAtLeastLines(m, before, width);
    QuotientNonNegative(w, width);
  }

  lemma QuotientNonNegative(w: int, width: int)
    requires w >= 0 && width > 0
    ensures w / width >= 0
  {
  }

  lemma {:induction false} RowsAtLeastLines(m: Measurer, lines: seq<string>, width: int)
    requires width > 0 && m.Ready?
    ensures RowsOccupied(m, lines, width) >= |lines|
    decreases |lines|
  {
    if lines != [] {
      RowsAtLeastLines(m, lines[..|lines| - 1], width);
    }
  }

  /** The wrap count summed over every line plus the number of hard breaks
      is the caret row. */
  lemma {:induction false} WrapsPlusBreaksIsCaretRow(m: Measurer, prefix: string, width: int)
    requires width > 0
    ensures WrapRows(m, Split(LineBreaks, prefix), width) + MatchCount(LineBreaks, prefix)
      == CaretRow(m, prefix, width)
  {
    var lines := Split(LineBreaks, prefix);
    SplitCount(LineBreaks, prefix);
    RowsOccupiedIsWrapsPlusLines(m, lines[..|lines| - 1], width);
  }

  /** The body of `setPos` for the text before the caret: split it at hard
      breaks, sum the soft wraps of every line, add the number of hard
      breaks, and take the last line's width modulo the client width. The box
      goes one line below the caret's row, at the caret's column. */
  function Locate(m: Measurer, box: Box, prefix: string): (p: Point)
    requires box.clientWidth > 0
    ensures 0 <= p.x - box.offsetLeft < box.clientWidth
    ensures p.x - box.offsetLeft == LastLineWidth(m, prefix) % box.clientWidth
    ensures p.y == (CaretRow(m, prefix, box.clientWidth) + 1) * box.lineHeight + box.offsetTop
  {
    var areaWidth := box.clientWidth;
    var lines := Split(LineBreaks, prefix);
    var lastWidth := MeasureString(m, Last(lines));
    var innerY := WrapRows(m, lines, areaWidth);
    var innerX := lastWidth / areaWidth;
    var lfCount := MatchCount(LineBreaks, prefix);
    WrapsPlusBreaksIsCaretRow(m, prefix, areaWidth);
    RowBelow(innerY + lfCount, box.lineHeight, box.offsetTop);
    ColumnIsRemainder(lastWidth, areaWidth);
    Point(lastWidth - innerX * areaWidth + box.offsetLeft,
          (innerY + lfCount) * box.lineHeight + box.offsetTop + box.lineHeight)
  }

  lemma ColumnIsRemainder(width: int, areaWidth: int)
    requires areaWidth > 0
    ensures width - (width / areaWidth) * areaWidth == width % areaWidth
  {
  }

  lemma RowBelow(row: int, lineHeight: int, top: int)
    ensures row * lineHeight + top + lineHeight == (row + 1) * lineHeight + top
  {
  }

  /** `String.prototype.slice` from the start up to `end`, including
      JavaScript's reading of a negative end as counted back from the end of
      the string. */
  function SlicePrefix(value: string, end: int): (r: string)
    ensures |r| <= |value| && r == value[..|r|]
    ensures 0 <= end ==> |r| == if end <= |value| then end else |value|
    ensures end < 0 ==> |r| == if |value| + end >= 0 then |value| + end else 0
  {
    var stop := if end < 0 then |value| + end else end;
    if stop <= 0 then [] else if stop >= |value| then value else value[..stop]
  }

  /** The text `setPos` measures, as written: the text up to one character
      before the caret, taken with JavaScript's negative-end reading, so that
      at caret 0 the end is -1 and all but the last character is selected. */
  function GeometryPrefixAsWritten(value: string, caret: nat): string
    requires caret <= |value|
  {
    SlicePrefix(value, caret - 1)
  }

  /** The text `setPos` is meant to measure: everything before the caret
      except the character right before it, and nothing at caret 0. */
  function GeometryPrefix(value: string, caret: nat): (r: string)
    requires caret <= |value|
    ensures caret == 0 ==> r == []
    ensures caret > 0 ==> r == value[..caret - 1]
  {
    SlicePrefix(value, if caret == 0 then 0 else caret - 1)
  }

  /** `setPos` as written. */
  function LocateCaretAsWritten(m: Measurer, box: Box, value: string, caret: nat): Point
    requires caret <= |value| && box.clientWidth > 0
  {
    Locate(m, box, GeometryPrefixAsWritten(value, caret))
  }

  /** `setPos` with the caret-0 case corrected. */
  function LocateCaret(m: Measurer, box: Box, value: string, caret: nat): Point
    requires caret <= |value| && box.clientWidth > 0
  {
    Locate(m, box, GeometryPrefix(value, caret))
  }

  /** The two agree everywhere except at caret 0. */
  lemma AsWrittenAgreesAfterFirstCharacter(m: Measurer, box: Box, value: string, caret: nat)
    requires 0 < caret <= |value| && box.clientWidth > 0
    ensures LocateCaretAsWritten(m, box, value, caret) == LocateCaret(m, box, value, caret)
  {
  }

  /** A caret at the very start of the buffer sits in the first column of the
      first row, so the box goes one line below the textarea's top-left
      corner, provided the empty string measures 0. */
  lemma {:induction false} CaretAtStartPlacement(m: Measurer, box: Box, value: string)
    requires box.clientWidth > 0 && m.Ready? && m.width("") == 0
    ensures LocateCaret(m, box, value, 0) == Point(box.offsetLeft, box.lineHeight + box.offsetTop)
  {
    assert SpacesToA("") == "";
    assert Split(LineBreaks, "") == [""];
    assert CaretRow(m, "", box.clientWidth) == 0;
  }

  /** As written, a caret at the start of `"a\nb"` measures `"a\n"`, whose
      hard break puts the box at least one line too low. */
  lemma {:induction false} AsWrittenMisplacesCaretAtStart(m: Measurer, box: Box)
    requires box.clientWidth > 0 && box.lineHeight > 0 && m.Ready?
    ensures LocateCaretAsWritten(m, box, "a\nb", 0).y >= 2 * box.lineHeight + box.offsetTop
    ensures LocateCaretAsWritten(m, box, "a\nb", 0).y != box.lineHeight + box.offsetTop
  {
    var prefix := GeometryPrefixAsWritten("a\nb", 0);
    assert prefix == "a\n";
    assert MatchCount(LineBreaks, "a\n") == 1 by {
      assert "a\n"[1..] == "\n";
      assert "\n"[1..] == [];
    }
    CaretRowCountsHardBreaks(m, prefix, box.clientWidth);
    var row := CaretRow(m, prefix, box.clientWidth);
    SecondRowOrBelow(row, box.lineHeight);
  }

  lemma SecondRowOrBelow(row: int, lineHeight: int)
    requires row >= 1 && lineHeight > 0
    ensures (row + 1) * lineHeight >= 2 * lineHeight
  {
  }
}

=== FILE: js_string.dfy ===
/** The JavaScript string primitives the autocompletion engine relies on:
    the whitespace class, `trim`, `indexOf` and `replace` with a string
    pattern. Strings are sequences of characters. */
module JsString {

  /** WhiteSpace and LineTerminator of ECMA-262: exactly the characters the
      regular-expression class `\s` matches and `String.prototype.trim`
      removes. */
  predicate IsJsSpace(c: char) {
    || c == '\t' || c == '\n' || c == '\U{000B}' || c == '\U{000C}' || c == '\r'
    || c == ' ' || c == '\U{00A0}' || c == '\U{1680}'
    || ('\U{2000}' <= c <= '\U{200A}')
    || c == '\U{2028}' || c == '\U{2029}' || c == '\U{202F}' || c == '\U{205F}'
    || c == '\U{3000}' || c == '\U{FEFF}'
  }

  ghost predicate AllSpace(s: string) {
    forall i :: 0 <= i < |s| ==> IsJsSpace(s[i])
  }

  /** Drops leading whitespace: the result is a suffix of `s`, everything
      dropped is whitespace, and the result does not start with whitespace. */
  function TrimStart(s: string): (r: string)
    ensures |r| <= |s| && r == s[|s| - |r|..]
    ensures AllSpace(s[..|s| - |r|])
    ensures r == [] || !IsJsSpace(r[0])
    decreases |s|
  {
    if s != [] && IsJsSpace(s[0]) then
      var r := TrimStart(s[1..]);
      assert s[..|s| - |r|] == [s[0]] + s[1..][..|s| - 1 - |r|];
      r
    else s
  }

  /** Drops trailing whitespace: the result is a prefix of `s`, everything
      dropped is whitespace, and the result does not end with whitespace. */
  function TrimEnd(s: string): (r: string)
    ensures |r| <= |s| && r == s[..|r|]
    ensures AllSpace(s[|r|..])
    ensures r == [] || !IsJsSpace(r[|r| - 1])
    decreases |s|
  {
    if s != [] && IsJsSpace(s[|s| - 1]) then
      var r := TrimEnd(s[..|s| - 1]);
      assert s[|r|..] == s[..|s| - 1][|r|..] + [s[|s| - 1]];
      r
    else s
  }

  /** Neither the first nor the last character is whitespace. */
  predicate IsTrimmed(s: string) {
    s == [] || (!IsJsSpace(s[0]) && !IsJsSpace(s[|s| - 1]))
  }

  /** `String.prototype.trim`: the result is the input with its leading and
      trailing whitespace removed and nothing else; it neither starts nor
      ends with whitespace. */
  function Trim(s: string): (r: string)
    ensures |r| <= |s|
    ensures IsTrimmed(r)
  {
    var u := TrimStart(s);
    var r := TrimEnd(u);
    MiddleSlice(s, u, r);
    r
  }

  /** `r` is the slice of `s` that starts at `k`, with only whitespace
      before and after it, and neither starts nor ends with whitespace. */
  ghost predicate KeepsMiddle(s: string, k: nat, r: string) {
    && IsTrimmed(r)
    && k + |r| <= |s| && r == s[k..k + |r|]
    && AllSpace(s[..k]) && AllSpace(s[k + |r|..])
  }

  /** What `Trim` removes: only whitespace before index `k`, where the slice
      it keeps starts, and only whitespace after that slice. */
  lemma TrimKeepsMiddle(s: string) returns (k: nat)
    ensures KeepsMiddle(s, k, Trim(s))
  {
    var u := TrimStart(s);
    var r := TrimEnd(u);
    assert Trim(s) == r;
    k := |s| - |u|;
    MiddleSlice(s, u, r);
  }

  /** A whitespace-free-ended prefix `r` of a suffix `u` of `s`, with only
      whitespace dropped on either side, is a trimmed middle slice of `s`. */
  lemma MiddleSlice(s: string, u: string, r: string)
    requires |u| <= |s| && u == s[|s| - |u|..]
    requires AllSpace(s[..|s| - |u|]) && (u == [] || !IsJsSpace(u[0]))
    requires |r| <= |u| && r == u[..|r|]
    requires AllSpace(u[|r|..]) && (r == [] || !IsJsSpace(r[|r| - 1]))
    ensures KeepsMiddle(s, |s| - |u|, r)
  {
    PrefixOfSuffix(s, u, r);
    if r != [] {
      assert r[0] == u[0];
    }
  }

  /** A prefix `r` of a suffix `u` of `s` is a slice of `s`, and what follows
      `r` in `u` is the rest of `s`. */
  lemma PrefixOfSuffix(s: string, u: string, r: string)
    requires |u| <= |s| && u == s[|s| - |u|..]
    requires |r| <= |u| && r == u[..|r|]
    ensures var k := |s| - |u|; r == s[k..k + |r|] && u[|r|..] == s[k + |r|..]
  {
  }

  /** The trimmed string is empty exactly when the input is all whitespace. */
  lemma TrimEmptyIffAllSpace(s: string)
    ensures Trim(s) == [] <==> AllSpace(s)
  {
    var k := TrimKeepsMiddle(s);
    if Trim(s) == [] {
      EmptyTrimIsAllSpace(s, k);
    } else {
      NonEmptyTrimHasNonSpace(s, k, Trim(s));
    }
  }

  /** Only whitespace on either side of an empty middle: all whitespace. */
  lemma EmptyTrimIsAllSpace(s: string, k: nat)
    requires KeepsMiddle(s, k, [])
    ensures AllSpace(s)
  {
    forall i | 0 <= i < |s| ensures IsJsSpace(s[i]) {
      if i < k {
        assert s[i] == s[..k][i];
      } else {
        assert s[i] == s[k..][i - k];
      }
    }
  }

  /** A non-empty trimmed slice starts with a character that is not
      whitespace. */
  lemma NonEmptyTrimHasNonSpace(s: string, k: nat, r: string)
    requires r != [] && KeepsMiddle(s, k, r)
    ensures !AllSpace(s)
  {
    assert s[k] == r[0];
  }

  /** True when `t` occurs in `s` starting at index `j`. */
  ghost predicate OccursAt(s: string, t: string, j: int) {
    0 <= j && j + |t| <= |s| && s[j..j + |t|] == t
  }

  /** `s.indexOf(t)`: the first index at which `t` occurs in `s`, or -1 when
      it occurs nowhere. The empty string occurs at index 0. */
  function IndexOf(s: string, t: string): (r: int)
    ensures -1 <= r && (r >= 0 ==> r + |t| <= |s|)
    decreases |s|
  {
    if |t| > |s| then -1
    else if s[..|t|] == t then 0
    else
      var r := IndexOf(s[1..], t);
      if r < 0 then -1 else r + 1
  }

  /** `IndexOf` finds an occurrence, no occurrence lies before it, and -1
      means `t` occurs nowhere in `s`. */
  lemma {:induction false} IndexOfIsFirstOccurrence(s: string, t: string)
    ensures var r := IndexOf(s, t);
      && (r >= 0 ==> OccursAt(s, t, r))
      && (r >= 0 ==> forall j :: 0 <= j < r ==> !OccursAt(s, t, j))
      && (r == -1 ==> forall j :: !OccursAt(s, t, j))
    decreases |s|
  {
    if |t| <= |s| && s[..|t|] == t {
      assert s[0..|t|] == s[..|t|];
    } else if |t| <= |s| {
      assert !OccursAt(s, t, 0) by { assert s[0..|t|] == s[..|t|]; }
      var rest := IndexOf(s[1..], t);
      IndexOfIsFirstOccurrence(s[1..], t);
      if rest < 0 {
        forall j ensures !OccursAt(s, t, j) {
          if j >= 1 { OccursAfterFirst(s, t, j); }
        }
      } else {
        OccursAfterFirst(s, t, rest + 1);
        forall j | 0 <= j < rest + 1 ensures !OccursAt(s, t, j) {
          if j >= 1 { OccursAfterFirst(s, t, j); }
        }
      }
    }
  }

  /** An occurrence past the first character is an occurrence in the rest. */
  lemma OccursAfterFirst(s: string, t: string, j: int)
    requires s != [] && 1 <= j
    ensures OccursAt(s, t, j) <==> OccursAt(s[1..], t, j - 1)
  {
    if j + |t| <= |s| {
      var u := s[1..];
      assert u[j - 1..] == s[j..];
      assert u[j - 1..j - 1 + |t|] == u[j - 1..][..|t|];
      assert s[j..j + |t|] == s[j..][..|t|];
    }
  }

  /** `s.replace(pattern, '')` with a string pattern: removes the first
      occurrence of `pattern`, or returns `s` unchanged when there is none. */
  function RemoveFirst(s: string, pattern: string): (r: string)
    ensures IndexOf(s, pattern) == -1 ==> r == s
    ensures IndexOf(s, pattern) >= 0 ==> |r| == |s| - |pattern|
  {
    var i := IndexOf(s, pattern);
    if i < 0 then s else s[..i] + s[i + |pattern|..]
  }

  /** Removing a prefix of `s` by its first occurrence leaves exactly the rest
      of `s`: the earliest occurrence is the one at index 0. */
  lemma RemoveFirstOfPrefix(s: string, k: nat)
    requires k <= |s|
    ensures RemoveFirst(s, s[..k]) == s[k..]
  {
    assert OccursAt(s, s[..k], 0);
  }
}

=== FILE: matcher.dfy ===
/** The matcher (`setSuggestions`): looks up the bucket of the token's first
    character and keeps, in bucket order, every entry that contains the token
    and differs from it, paired with the text to insert. */
module Matcher {
  import opened Wrappers
  import opened JsString
  import opened CandidateStore

  /** `{suggest, comp}`: the entry shown, and the text inserted when it is
      chosen. */
  datatype Item = Item(suggest: string, comp: string)

  /** The test `setSuggestions` applies to each entry of the bucket: the
      token occurs somewhere in the entry, and the entry is not the token
      itself. */
  predicate Keeps(candidate: string, token: string) {
    IndexOf(candidate, token) != -1 && candidate != token
  }

  /** The shown entries of a list of items. */
  function Suggests(items: seq<Item>): (r: seq<string>)
    ensures |r| == |items|
    ensures forall i :: 0 <= i < |items| ==> r[i] == items[i].suggest
  {
    seq(|items|, i requires 0 <= i < |items| => items[i].suggest)
  }

  /** `a` is `b` with some elements left out, order preserved. */
  ghost predicate IsSubsequence<T>(a: seq<T>, b: seq<T>)
    decreases |b|
  {
    if a == [] then true
    else if b == [] then false
    else (a[0] == b[0] && IsSubsequence(a[1..], b[1..])) || IsSubsequence(a, b[1..])
  }

  /** The remainder is the entry with as many leading characters removed as
      the token has, whether or not the token is where the entry starts. */
  ghost predicate IsPositionalRemainder(item: Item, token: string) {
    |token| <= |item.suggest| && item.comp == item.suggest[|token|..]
  }

  /** The loop of `setSuggestions` over one bucket. */
  function Filter(bucket: seq<string>, token: string): (items: seq<Item>)
    ensures |items| <= |bucket|
    ensures forall i :: 0 <= i < |items| ==>
      Keeps(items[i].suggest, token) && IsPositionalRemainder(items[i], token)
    decreases |bucket|
  {
    if bucket == [] then []
    else
      var c := bucket[0];
      var rest := Filter(bucket[1..], token);
      if Keeps(c, token) then
        [Item(c, c[|token|..])] + rest
      else
        rest
  }

  /** An entry is shown exactly when it is in the bucket and kept. */
  lemma {:induction false} FilterMembership(bucket: seq<string>, token: string)
    ensures forall c :: c in Suggests(Filter(bucket, token)) <==> c in bucket && Keeps(c, token)
    decreases |bucket|
  {
    if bucket != [] {
      FilterMembership(bucket[1..], token);
      assert bucket == [bucket[0]] + bucket[1..];
      var rest := Filter(bucket[1..], token);
      if Keeps(bucket[0], token) {
        assert Suggests(Filter(bucket, token)) == [bucket[0]] + Suggests(rest);
      }
    }
  }

  /** `shown` holds every kept entry of `bucket` as many times as the bucket
      does, and nothing else. */
  ghost predicate CountsKept(shown: seq<string>, bucket: seq<string>, token: string) {
    forall c :: multiset(shown)[c] == (if Keeps(c, token) then multiset(bucket)[c] else 0)
  }

  /** The filtered bucket counts the kept entries of the bucket. */
  lemma {:induction false} FilterCounts(bucket: seq<string>, token: string)
    ensures CountsKept(Suggests(Filter(bucket, token)), bucket, token)
    decreases |bucket|
  {
    if bucket == [] {
      assert Suggests(Filter(bucket, token)) == [];
    } else {
      var rest := Suggests(Filter(bucket[1..], token));
      FilterCounts(bucket[1..], token);
      FilterSuggestsStep(bucket, token);
      CountsKeptCons(bucket[0], bucket[1..], rest, token);
      assert [bucket[0]] + bucket[1..] == bucket;
    }
  }

  /** The shown entries of a non-empty bucket: its first entry when kept,
      then those of the rest. */
  lemma FilterSuggestsStep(bucket: seq<string>, token: string)
    requires bucket != []
    ensures Suggests(Filter(bucket, token)) ==
      (if Keeps(bucket[0], token) then [bucket[0]] else []) + Suggests(Filter(bucket[1..], token))
  {
    var rest := Filter(bucket[1..], token);
    if Keeps(bucket[0], token) {
      var item := Item(bucket[0], bucket[0][|token|..]);
      assert Filter(bucket, token) == [item] + rest;
      SuggestsCons(item, rest);
    } else {
      assert Filter(bucket, token) == rest;
      assert [] + Suggests(rest) == Suggests(rest);
    }
  }

  /** The shown entries of one more item in front. */
  lemma SuggestsCons(item: Item, items: seq<Item>)
    ensures Suggests([item] + items) == [item.suggest] + Suggests(items)
  {
    var l, r := Suggests([item] + items), [item.suggest] + Suggests(items);
    assert |l| == |r|;
    forall i | 0 <= i < |l| ensures l[i] == r[i] {
      if i > 0 {
        assert ([item] + items)[i] == items[i - 1];
      }
    }
  }

  /** Counting survives one more bucket entry in front, shown when kept. */
  lemma CountsKeptCons(b: string, tail: seq<string>, shown: seq<string>, token: string)
    requires CountsKept(shown, tail, token)
    ensures CountsKept((if Keeps(b, token) then [b] else []) + shown, [b] + tail, token)
  {
    var head := if Keeps(b, token) then [b] else [];
    assert multiset(head + shown) == multiset(head) + multiset(shown);
    assert multiset([b] + tail) == multiset{b} + multiset(tail);
  }

  /** The shown entries keep the bucket's order. */
  lemma {:induction false} FilterIsSubsequence(bucket: seq<string>, token: string)
    ensures IsSubsequence(Suggests(Filter(bucket, token)), bucket)
    decreases |bucket|
  {
    if bucket != [] {
      FilterIsSubsequence(bucket[1..], token);
      var rest := Filter(bucket[1..], token);
      if Keeps(bucket[0], token) {
        var s := Suggests(Filter(bucket, token));
        assert s[0] == bucket[0] && s[1..] == Suggests(rest);
      } else if Suggests(rest) != [] {
        assert Suggests(Filter(bucket, token)) == Suggests(rest);
      }
    }
  }

  /** `setSuggestions(target_str)`: no bucket for the token's first character
      means no items; otherwise the filtered bucket. */
  function Matches(store: Store, token: string): (items: seq<Item>)
    ensures FirstKey(token) !in store ==> items == []
    ensures FirstKey(token) in store ==> |items| <= |store[FirstKey(token)]|
    ensures forall i :: 0 <= i < |items| ==>
      Keeps(items[i].suggest, token) && IsPositionalRemainder(items[i], token)
  {
    if FirstKey(token) !in store then [] else Filter(store[FirstKey(token)], token)
  }

  /** The matches are exactly the kept entries of the token's bucket, each
      as often as the bucket holds it, in bucket order. */
  lemma MatchesAreKeptEntriesInOrder(store: Store, token: string)
    ensures forall c :: c in Suggests(Matches(store, token)) <==>
      FirstKey(token) in store && c in store[FirstKey(token)] && Keeps(c, token)
    ensures FirstKey(token) in store ==>
      CountsKept(Suggests(Matches(store, token)), store[FirstKey(token)], token)
    ensures FirstKey(token) in store ==>
      IsSubsequence(Suggests(Matches(store, token)), store[FirstKey(token)])
  {
    if FirstKey(token) in store {
      FilterMembership(store[FirstKey(token)], token);
      FilterCounts(store[FirstKey(token)], token);
      FilterIsSubsequence(store[FirstKey(token)], token);
    }
  }

  /** An empty token never yields items: its bucket is the "undefined" one,
      which holds only empty strings, and an entry equal to the token is
      excluded. */
  lemma EmptyTokenMatchesNothing(store: Store)
    requires WellFormed(store)
    ensures Matches(store, "") == []
  {
    MatchesAreKeptEntriesInOrder(store, "");
  }

  /** When the token is a prefix of the entry, the remainder completes it. */
  lemma RemainderCompletesPrefix(store: Store, token: string, i: nat)
    requires i < |Matches(store, token)|
    requires var s := Matches(store, token)[i].suggest; |token| <= |s| && s[..|token|] == token
    ensures token + Matches(store, token)[i].comp == Matches(store, token)[i].suggest
  {
    var item := Matches(store, token)[i];
    assert item.suggest == item.suggest[..|token|] + item.suggest[|token|..];
  }

  /** The remainder is positional: for a listed entry that does not start
      with the token, the token followed by the remainder is not the entry. */
  lemma RemainderMissesElsewhere(store: Store, token: string, i: nat)
    requires i < |Matches(store, token)|
    requires var s := Matches(store, token)[i].suggest; s[..|token|] != token
    ensures token + Matches(store, token)[i].comp != Matches(store, token)[i].suggest
  {
    var item := Matches(store, token)[i];
    assert (token + item.comp)[..|token|] == token;
  }

  /** An instance: `aab` contains `ab` but does not start with
      it, and its remainder `b` after the token `ab` spells `abb`, not `aab`. */
  lemma PositionalRemainderQuirk()
    ensures Matches(map[Some('a') := ["aab"]], "ab") == [Item("aab", "b")]
    ensures "ab" + "b" != "aab"
  {
    assert "aab"[..2][1] != "ab"[1] && "aab"[1..] == "ab";
    assert IndexOf("ab", "ab") == 0;
    assert IndexOf("aab", "ab") == 1;
    assert Keeps("aab", "ab");
    assert Filter(["aab"], "ab") == [Item("aab", "b")];
  }

  /** A registered string is offered, as the last item and with the right
      remainder, for every token that is a non-empty proper prefix of it. */
  lemma {:induction false} RegisteredIsOffered(store: Store, arg: Arg, token: string)
    requires !Rejected(arg)
    requires var t := Trim(arg.s); 0 < |token| < |t| && t[..|token|] == token
    ensures var t := Trim(arg.s);
      var items := Matches(AddSuggestion(store, arg), token);
      |items| > 0 && items[|items| - 1] == Item(t, t[|token|..])
  {
    var t := Trim(arg.s);
    var r := AddSuggestion(store, arg);
    assert FirstKey(token) == FirstKey(t) by {
      assert token[0] == t[..|token|][0];
    }
    ProperPrefixIsKept(t, token);
    OfferedLast(r, Bucket(store, FirstKey(t)), t, token);
  }

  /** An entry that starts with the token and is longer than it is kept. */
  lemma ProperPrefixIsKept(t: string, token: string)
    requires |token| < |t| && t[..|token|] == token
    ensures Keeps(t, token)
  {
    assert IndexOf(t, token) == 0;
  }

  /** When the token's bucket ends with a kept entry, the matches end with
      it. */
  lemma OfferedLast(r: Store, bucket: seq<string>, t: string, token: string)
    requires FirstKey(token) in r && r[FirstKey(token)] == bucket + [t]
    requires Keeps(t, token)
    ensures var items := Matches(r, token);
      |items| > 0 && items[|items| - 1] == Item(t, t[|token|..])
  {
    FilterKeepsLast(bucket, t, token);
  }

  /** Filtering a bucket whose last entry is kept ends with that entry. */
  lemma {:induction false} FilterKeepsLast(bucket: seq<string>, c: string, token: string)
    requires Keeps(c, token)
    ensures var items := Filter(bucket + [c], token);
      |items| > 0 && items[|items| - 1] == Item(c, c[|token|..])
    decreases |bucket|
  {
    if bucket == [] {
      assert [c][1..] == [];
    } else {
      assert (bucket + [c])[1..] == bucket[1..] + [c];
      FilterKeepsLast(bucket[1..], c, token);
    }
  }

  /** With `hello`, `help` and `world` registered in that order, the token
      `hel` matches `hello` and `help`, in that order, and not `world`. */
  lemma MatchesOfHel()
    ensures var store := map[Some('h') := ["hello", "help"], Some('w') := ["world"]];
      Matches(store, "hel") == [Item("hello", "lo"), Item("help", "p")]
  {
    assert IndexOf("hello", "hel") == 0 && IndexOf("help", "hel") == 0;
    assert Filter(["help"], "hel") == [Item("help", "p")];
    assert Filter(["hello", "help"], "hel") == [Item("hello", "lo"), Item("help", "p")];
  }
}

=== FILE: navigation.dfy ===
/** The engine of `AutoCompleteMgr` around one focused textarea: the open or
    closed suggestion box with its highlighted item, the key handlers that
    move the highlight, commit or cancel, and the recompute that runs on
    every other caret change. */
module Navigation {
  import opened Wrappers
  import opened RegexSplit
  import opened CandidateStore
  import opened Tokenizer
  import opened Matcher
  import opened CaretGeometry

  /** Key codes the suggestion box handles while it is open. */
  const ArrowUp: int := 38
  const ArrowDown: int := 40
  const SpaceKey: int := 32
  const EnterKey: int := 13
  const EscapeKey: int := 27

  predicate IsBoxKey(code: int) {
    code in {ArrowUp, ArrowDown, SpaceKey, EnterKey, EscapeKey}
  }

  /** A textarea: its text, its collapsed caret (`selectionStart`) and its
      metrics. */
  datatype Surface = Surface(value: string, caret: nat, box: Box)

  /** The browser keeps the caret inside the text; `setPos` divides by the
      client width, which a rendered textarea has positive. */
  predicate ValidSurface(s: Surface) {
    s.caret <= |s.value| && s.box.clientWidth > 0
  }

  /** The suggestion box: `Closed`, or `Open` with its items, the index of
      the item marked `current_suggest`, and the position it was shown at. */
  datatype Session = Closed | Open(items: seq<Item>, index: nat, at: Point)

  predicate ValidSession(s: Session) {
    s.Open? ==> 0 < |s.items| && s.index < |s.items|
  }

  /** The closure's state: the candidate store, the measurement primitive,
      the focused textarea (`focus_textarea`) and the suggestion box. */
  datatype Engine = Engine(store: Store, measurer: Measurer, focus: Option<Surface>, session: Session)

  /** What every handler maintains: a well-formed store, a highlighted item
      inside the list, a valid focused surface, and no open box without a
      focused textarea. */
  ghost predicate Valid(e: Engine) {
    && WellFormed(e.store)
    && ValidSession(e.session)
    && (e.focus.Some? ==> ValidSurface(e.focus.value))
    && (e.session.Open? ==> e.focus.Some?)
  }

  function Max(a: int, b: int): int { if a < b then b else a }
  function Min(a: int, b: int): int { if a < b then a else b }

  /** `priventTextareaEventForSuggetionBox(e)`: true, with the default action
      prevented, when the box is open and the event is a key event for one
      of the box keys. Events without a key code (clicks, focus) are never
      intercepted. */
  function Intercepts(session: Session, key: Option<int>): (b: bool)
    ensures b <==> session.Open? && key.Some? && IsBoxKey(key.value)
  {
    if !session.Open? then false
    else
      match key
      case None => false
      case Some(code) =>
        code == ArrowUp || code == ArrowDown || code == SpaceKey || code == EnterKey || code == EscapeKey
  }

  /** The pipeline of `onMoveSelection` after its guards: `setPos` (with
      the caret-0 placement corrected, see `LocateCaret`), then
      `setSearchStr(setTargetStr)` and `setSuggestions`, then
      `displaySuggestionBox`, which opens the box with its first item
      highlighted only when there is an item. */
  function Recompute(store: Store, m: Measurer, s: Surface): (r: Session)
    requires ValidSurface(s)
    ensures ValidSession(r)
    ensures r.Open? <==> Matches(store, Tokenize(s.value, s.caret).Text()) != []
    ensures r.Open? ==> r.index == 0
    ensures r.Open? ==> r.items == Matches(store, Tokenize(s.value, s.caret).Text())
    ensures r.Open? ==> r.at == LocateCaret(m, s.box, s.value, s.caret)
  {
    var at := LocateCaret(m, s.box, s.value, s.caret);
    var token := Tokenize(s.value, s.caret);
    var items := Matches(store, token.Text());
    if items == [] then Closed else Open(items, 0, at)
  }

  /** The box opens exactly when the bucket of the token's first character
      holds an entry that contains the token and is not the token itself. */
  lemma RecomputeOpensOnKeptEntry(store: Store, m: Measurer, s: Surface)
    requires ValidSurface(s)
    ensures var token := Tokenize(s.value, s.caret).Text();
      Recompute(store, m, s).Open? <==>
        FirstKey(token) in store && exists c :: c in store[FirstKey(token)] && Keeps(c, token)
  {
    var token := Tokenize(s.value, s.caret).Text();
    var shown := Suggests(Matches(store, token));
    MatchesAreKeptEntriesInOrder(store, token);
    if shown != [] {
      assert shown[0] in shown;
    }
  }

  /** `onMoveSelection(e)`: nothing without a focused textarea or when the
      event is intercepted; otherwise the box is torn down and rebuilt from
      the current text and caret, forgetting the previous highlight. The
      text itself never changes. */
  function OnMoveSelection(e: Engine, key: Option<int>): (r: Engine)
    requires Valid(e)
    ensures Valid(r)
    ensures r.store == e.store && r.measurer == e.measurer && r.focus == e.focus
    ensures e.focus.None? || Intercepts(e.session, key) ==> r == e
    ensures e.focus.Some? && !Intercepts(e.session, key) ==>
      r.session == Recompute(e.store, e.measurer, e.focus.value)
  {
    if e.focus.None? || Intercepts(e.session, key) then e
    else e.(session := Recompute(e.store, e.measurer, e.focus.value))
  }

  /** `execCommand('insertText')` at a collapsed caret: the text is spliced
      in at the caret, and the caret ends after it. */
  function InsertText(s: Surface, text: string): (r: Surface)
    requires ValidSurface(s)
    ensures ValidSurface(r) && r.box == s.box
    ensures |r.value| == |s.value| + |text|
    ensures r.value[..s.caret] == s.value[..s.caret]
    ensures r.value[s.caret..s.caret + |text|] == text
    ensures r.value[s.caret + |text|..] == s.value[s.caret..]
    ensures r.caret == s.caret + |text|
  {
    var value := s.value[..s.caret] + text + s.value[s.caret..];
    assert value[..s.caret] == s.value[..s.caret];
    assert value[s.caret..s.caret + |text|] == text;
    assert value[s.caret + |text|..] == s.value[s.caret..];
    s.(value := value, caret := s.caret + |text|)
  }

  /** The end of the word under the caret: the caret moved past the part of
      the token after it. */
  function WordEnd(s: Surface): (k: nat)
    requires ValidSurface(s)
    ensures s.caret <= k <= |s.value|
  {
    s.caret + |Tokenize(s.value, s.caret).after|
  }

  /** `decidedSuggestionItem(comp)`: move the caret forward by the length of
      the token's half after the caret, to the end of the word, then insert
      the remainder there. */
  function Commit(s: Surface, comp: string): (r: Surface)
    requires ValidSurface(s)
    ensures ValidSurface(r) && r.box == s.box
  {
    InsertText(s.(caret := WordEnd(s)), comp)
  }

  /** The commit inserts the remainder at the end of the word, which is the
      end of the buffer or a delimiter; text before and after the insertion
      is unchanged, and the caret ends after the inserted text. */
  lemma CommitSplicesAtWordEnd(s: Surface, comp: string)
    requires ValidSurface(s)
    ensures var k := WordEnd(s);
      var r := Commit(s, comp);
      && (k == |s.value| || IsDelimiter(TokenDelimiters, s.value[k]))
      && |r.value| == |s.value| + |comp|
      && r.value[..k] == s.value[..k]
      && r.value[k..k + |comp|] == comp
      && r.value[k + |comp|..] == s.value[k..]
      && r.caret == k + |comp|
  {
    TokenizeIsToken(s.value, s.caret);
  }

  /** `changeCurrentSuggestion` and the switch of
      `addEventForSuggestionBoxOnKeyup`, on an open box: Up moves to the
      previous item and Down or Space to the next, staying put at either
      end; Enter commits the highlighted item into the focused textarea and
      then falls through to Escape, which closes the box. Other keys change
      nothing; a closed box has no such handler. */
  function WindowKeyUp(e: Engine, code: int): (r: Engine)
    requires Valid(e)
    ensures Valid(r)
    ensures r.store == e.store && r.measurer == e.measurer
    ensures e.session.Closed? ==> r == e
    ensures e.session.Open? && code == ArrowUp ==>
      r == e.(session := e.session.(index := Max(0, e.session.index - 1)))
    ensures e.session.Open? && (code == ArrowDown || code == SpaceKey) ==>
      r == e.(session := e.session.(index := Min(|e.session.items| - 1, e.session.index + 1)))
    ensures e.session.Open? && code == EnterKey ==>
      && r.session.Closed?
      && r.focus == Some(Commit(e.focus.value, e.session.items[e.session.index].comp))
    ensures e.session.Open? && code == EscapeKey ==> r == e.(session := Closed)
    ensures e.session.Open? && !IsBoxKey(code) ==> r == e
  {
    match e.session
    case Closed => e
    case Open(items, index, at) =>
      if code == ArrowUp then
        var next := if index > 0 then index - 1 else index;
        e.(session := Open(items, next, at))
      else if code == ArrowDown || code == SpaceKey then
        var next := if index + 1 < |items| then index + 1 else index;
        e.(session := Open(items, next, at))
      else if code == EnterKey then
        var committed := Commit(e.focus.value, items[index].comp);
        e.(focus := Some(committed), session := Closed)
      else if code == EscapeKey then
        e.(session := Closed)
      else
        e
  }

  /** What happens in the browser and in the handlers. `KeyDown` and `Click`
      carry the textarea as the browser's default action leaves it (the
      typed text, the moved caret); `PickItem` is a mousedown on the `i`-th
      item of the box. */
  datatype Event =
    | Register(arg: Arg)
    | Focus(target: Surface)
    | Blur
    | KeyDown(code: int, native: Surface)
    | KeyUp(code: int)
    | Click(native: Surface)
    | PickItem(i: nat)

  predicate ValidEvent(ev: Event) {
    match ev
    case Focus(target) => ValidSurface(target)
    case KeyDown(_, native) => ValidSurface(native)
    case Click(native) => ValidSurface(native)
    case _ => true
  }

  /** One event, dispatched to the handlers the source registers:
      - `Register`: `addSuggestion`.
      - `Focus`: `onFocus` records the textarea and recomputes.
      - `Blur`: `onBlur` closes the box and forgets the textarea.
      - `KeyDown`: the keydown listener prevents the browser's default action
        for a box key while the box is open; otherwise the default action
        edits the textarea.
      - `KeyUp`: the textarea's keyup listener (`onMoveSelection`) runs
        first, then, if the box is open at that point, the window's keyup
        listener, in the order the event reaches them.
      - `Click`: the browser moves the caret, then `onMoveSelection` runs.
      - `PickItem`: the mousedown handler of an item commits its remainder;
        the box stays until the blur that follows. */
  function Step(e: Engine, ev: Event): (r: Engine)
    requires Valid(e) && ValidEvent(ev)
    ensures Valid(r)
  {
    match ev
    case Register(arg) =>
      AddSuggestionKeepsWellFormed(e.store, arg);
      e.(store := AddSuggestion(e.store, arg))
    case Focus(target) =>
      OnMoveSelection(e.(focus := Some(target)), None)
    case Blur =>
      e.(focus := None, session := Closed)
    case KeyDown(code, native) =>
      if e.focus.None? || Intercepts(e.session, Some(code)) then e
      else e.(focus := Some(native))
    case KeyUp(code) =>
      WindowKeyUp(OnMoveSelection(e, Some(code)), code)
    case Click(native) =>
      if e.focus.None? then e
      else OnMoveSelection(e.(focus := Some(native)), None)
    case PickItem(i) =>
      if e.session.Open? && i < |e.session.items| then
        e.(focus := Some(Commit(e.focus.value, e.session.items[i].comp)))
      else e
  }

  /** The engine right after construction: the initial candidates
      registered in order, no textarea focused, no box. */
  function Initial(args: seq<Arg>, m: Measurer): (e: Engine)
    ensures Valid(e)
    ensures e.session.Closed? && e.focus.None?
  {
    Engine(InitStore(args), m, None, Closed)
  }

  /** While the box is open, a box key's keydown leaves the textarea as it
      was: its default action is prevented. */
  lemma BoxKeyDownKeepsText(e: Engine, code: int, native: Surface)
    requires Valid(e) && ValidSurface(native)
    requires e.session.Open? && IsBoxKey(code)
    ensures Step(e, KeyDown(code, native)) == e
  {
  }

  /** While the box is open, a box key's keyup skips the recompute and is
      handled by the box alone. */
  lemma BoxKeyUpSkipsRecompute(e: Engine, code: int)
    requires Valid(e)
    requires e.session.Open? && IsBoxKey(code)
    ensures Step(e, KeyUp(code)) == WindowKeyUp(e, code)
  {
    assert Intercepts(e.session, Some(code));
    assert OnMoveSelection(e, Some(code)) == e;
  }

  /** Any other keyup in a focused textarea rebuilds the box from the current
      text and caret, whatever was highlighted before: it is open exactly
      when there are matches, with the first one highlighted. */
  lemma OtherKeyUpRecomputes(e: Engine, code: int)
    requires Valid(e) && e.focus.Some? && !IsBoxKey(code)
    ensures var r := Step(e, KeyUp(code));
      var s := e.focus.value;
      var items := Matches(e.store, Tokenize(s.value, s.caret).Text());
      && r.focus == e.focus
      && (r.session.Open? <==> items != [])
      && (r.session.Open? ==> r.session.index == 0 && r.session.items == items)
  {
  }

  /** Escape closes an open box and leaves the text alone. */
  lemma EscapeClosesOnly(e: Engine)
    requires Valid(e) && e.session.Open?
    ensures Step(e, KeyUp(EscapeKey)) == e.(session := Closed)
  {
  }

  /** Enter commits the highlighted item's remainder, then closes the box. */
  lemma EnterCommitsHighlighted(e: Engine)
    requires Valid(e) && e.session.Open?
    ensures var r := Step(e, KeyUp(EnterKey));
      && r.session.Closed?
      && r.focus == Some(Commit(e.focus.value, e.session.items[e.session.index].comp))
  {
    BoxKeyUpSkipsRecompute(e, EnterKey);
  }

  /** The keyup of Enter reaches the textarea's listener before the
      window's. With the box closed the first listener recomputes; if that
      opens the box, the window's listener, registered by then, sees the same
      Enter and commits the first match at once. */
  lemma EnterWhileClosedCommitsFirstMatch(e: Engine)
    requires Valid(e) && e.focus.Some? && e.session.Closed?
    requires var s := e.focus.value; Matches(e.store, Tokenize(s.value, s.caret).Text()) != []
    ensures var s := e.focus.value;
      var items := Matches(e.store, Tokenize(s.value, s.caret).Text());
      Step(e, KeyUp(EnterKey)) == e.(focus := Some(Commit(s, items[0].comp)), session := Closed)
  {
  }

  /** Down or Space released with the box closed: the recompute opens the
      box on the first match, and the window's listener, registered by then,
      moves the same keyup on to the second match when there is one. */
  lemma DownWhileClosedHighlightsSecond(e: Engine, code: int)
    requires Valid(e) && e.focus.Some? && e.session.Closed?
    requires code == ArrowDown || code == SpaceKey
    requires var s := e.focus.value; Matches(e.store, Tokenize(s.value, s.caret).Text()) != []
    ensures var s := e.focus.value;
      var items := Matches(e.store, Tokenize(s.value, s.caret).Text());
      var r := Step(e, KeyUp(code));
      && r.focus == e.focus
      && r.session.Open? && r.session.items == items
      && r.session.index == Min(|items| - 1, 1)
  {
    var s := e.focus.value;
    var first := OnMoveSelection(e, Some(code));
    assert first.session == Recompute(e.store, e.measurer, s);
  }

  /** When the token is a prefix of the chosen entry, committing its
      remainder leaves the whole entry in the text, ending at the new caret. */
  lemma CommitCompletesWord(s: Surface, item: Item)
    requires ValidSurface(s)
    requires var text := Tokenize(s.value, s.caret).Text();
      |text| <= |item.suggest| && item.suggest[..|text|] == text && item.comp == item.suggest[|text|..]
    ensures var t := Tokenize(s.value, s.caret);
      var r := Commit(s, item.comp);
      var start := s.caret - |t.before|;
      && start <= r.caret <= |r.value|
      && r.value[start..r.caret] == item.suggest
  {
    var t := Tokenize(s.value, s.caret);
    var k := WordEnd(s);
    TokenTextIsSlice(s.value, s.caret);
    assert s.(caret := k).value[s.caret - |t.before|..k] == t.Text();
    InsertionExtendsSlice(s.(caret := k), s.caret - |t.before|, item.comp);
    assert Commit(s, item.comp) == InsertText(s.(caret := k), item.comp);
    assert item.suggest == item.suggest[..|t.Text()|] + item.suggest[|t.Text()|..];
  }

  /** Inserting at the caret extends any slice that ends at the caret by the
      inserted text. */
  lemma InsertionExtendsSlice(s: Surface, start: nat, text: string)
    requires ValidSurface(s) && start <= s.caret
    ensures var r := InsertText(s, text);
      start <= r.caret <= |r.value| && r.value[start..r.caret] == s.value[start..s.caret] + text
  {
    var r := InsertText(s, text);
    assert r.value[start..r.caret] == r.value[..s.caret][start..] + r.value[s.caret..s.caret + |text|];
  }

  /** At the end of a word the commit is a plain insertion at the caret. */
  lemma CommitAtWordEnd(s: Surface, comp: string)
    requires ValidSurface(s) && Tokenize(s.value, s.caret).after == []
    ensures Commit(s, comp) == InsertText(s, comp)
  {
    assert WordEnd(s) == s.caret;
    assert s.(caret := WordEnd(s)) == s;
  }

  /** Committing `lo` in `"hel world"` with the caret after `hel` gives
      `"hello world"` with the caret after the inserted `lo`. */
  lemma CommitOfHelWorld(s: Surface)
    requires s.value == "hel world" && s.caret == 3 && s.box.clientWidth > 0
    ensures Commit(s, "lo") == s.(value := "hello world", caret := 5)
  {
    NothingAfterHel(s.value);
    CommitAtWordEnd(s, "lo");
    assert s.value[..3] + "lo" + s.value[3..] == "hello world";
  }

  lemma NothingAfterHel(value: string)
    requires value == "hel world"
    ensures Tokenize(value, 3).after == []
  {
    assert value[0..3] == "hel";
    WordBeforeDelimiterIsToken(value, 3, "hel");
  }

  /** With three items and the first highlighted, Up stays on the first item
      and Down stops at the last. */
  lemma HighlightClampsAtBothEnds(e: Engine, items: seq<Item>, at: Point)
    requires Valid(e) && |items| == 3 && e.session == Open(items, 0, at)
    ensures Step(e, KeyUp(ArrowUp)).session == Open(items, 0, at)
    ensures Step(Step(Step(e, KeyUp(ArrowDown)), KeyUp(ArrowDown)), KeyUp(ArrowDown)).session
      == Open(items, 2, at)
  {
    var e1 := Step(e, KeyUp(ArrowDown));
    assert e1.session == Open(items, 1, at);
    var e2 := Step(e1, KeyUp(ArrowDown));
    assert e2.session == Open(items, 2, at);
    var e3 := Step(e2, KeyUp(ArrowDown));
    assert e3.session == Open(items, 2, at);
  }
}

=== FILE: regex_split.dfy ===
/** `String.prototype.split` and the match count of `String.prototype.match`
    with a global flag, for the two delimiter regular expressions of the
    engine. Both are alternations whose first alternative is `\r\n`, so a
    carriage return followed by a line feed is one match, and every other
    match is a single delimiter character. Neither can match the empty string. */
module RegexSplit {
  import opened JsString

  /** `LineBreaks` is `/\r\n|\r|\n/`, used for hard line breaks;
      `TokenDelimiters` is the word-delimiter expression of the tokenizer. */
  datatype Pattern = LineBreaks | TokenDelimiters

  /** Punctuation the tokenizer treats as delimiters besides `\s`: semicolon,
      colon, comma, ideographic comma and full stop, parentheses, full stop,
      plus, minus, slash and backslash. */
  predicate IsTokenPunctuation(c: char) {
    || c == ';' || c == ':' || c == ',' || c == '\U{3001}' || c == '\U{3002}'
    || c == '(' || c == ')' || c == '.' || c == '+' || c == '-' || c == '/' || c == '\\'
  }

  predicate IsDelimiter(p: Pattern, c: char) {
    match p
    case LineBreaks => c == '\r' || c == '\n'
    case TokenDelimiters => IsJsSpace(c) || IsTokenPunctuation(c)
  }

  ghost predicate NoDelimiter(p: Pattern, s: string) {
    forall i :: 0 <= i < |s| ==> !IsDelimiter(p, s[i])
  }

  /** Length of the match that starts at the first character of `s`. */
  function MatchLength(p: Pattern, s: string): (n: nat)
    requires s != [] && IsDelimiter(p, s[0])
    ensures 1 <= n <= |s|
    ensures IsDelimiter(p, s[n - 1])
  {
    if |s| >= 2 && s[0] == '\r' && s[1] == '\n' then 2 else 1
  }

  /** Index of the first delimiter in `s`, or `|s|` when there is none. */
  function SegmentEnd(p: Pattern, s: string): (k: nat)
    ensures k <= |s|
    ensures NoDelimiter(p, s[..k])
    ensures k < |s| ==> IsDelimiter(p, s[k])
    decreases |s|
  {
    if s == [] || IsDelimiter(p, s[0]) then 0
    else
      var k := 1 + SegmentEnd(p, s[1..]);
      assert s[..k] == [s[0]] + s[1..][..k - 1];
      k
  }

  /** `s.split(pattern)`: the segments between matches, in order. There is
      always at least one segment, and no segment holds a delimiter. */
  function Split(p: Pattern, s: string): (parts: seq<string>)
    ensures |parts| >= 1
    ensures forall i :: 0 <= i < |parts| ==> NoDelimiter(p, parts[i])
    decreases |s|
  {
    var k := SegmentEnd(p, s);
    if k == |s| then [s] else [s[..k]] + Split(p, s[k + MatchLength(p, s[k..])..])
  }

  /** The number of matches of the pattern with the global flag, or 0 when
      there is none, scanning left to right. */
  function MatchCount(p: Pattern, s: string): nat
    decreases |s|
  {
    if s == [] then 0
    else if IsDelimiter(p, s[0]) then 1 + MatchCount(p, s[MatchLength(p, s)..])
    else MatchCount(p, s[1..])
  }

  /** A delimiter-free prefix contributes no matches. */
  lemma {:induction false} MatchCountSkipsSegment(p: Pattern, s: string, k: nat)
    requires k <= |s| && NoDelimiter(p, s[..k])
    ensures MatchCount(p, s) == MatchCount(p, s[k..])
    decreases k
  {
    if k > 0 {
      assert !IsDelimiter(p, s[..k][0]);
      assert s[1..][..k - 1] == s[..k][1..];
      MatchCountSkipsSegment(p, s[1..], k - 1);
      assert s[1..][k - 1..] == s[k..];
    }
  }

  /** Splitting yields one more segment than there are matches. */
  lemma {:induction false} SplitCount(p: Pattern, s: string)
    ensures |Split(p, s)| == MatchCount(p, s) + 1
    decreases |s|
  {
    if SegmentEnd(p, s) < |s| {
      SplitCount(p, RestAfterFirstMatch(p, s));
      MatchCountAtFirstMatch(p, s);
    } else {
      MatchCountSkipsSegment(p, s, |s|);
      assert s[|s|..] == [];
    }
  }

  /** The first match counts once, and counting resumes after it. */
  lemma MatchCountAtFirstMatch(p: Pattern, s: string)
    requires SegmentEnd(p, s) < |s|
    ensures MatchCount(p, s) == 1 + MatchCount(p, RestAfterFirstMatch(p, s))
  {
    var k := SegmentEnd(p, s);
    MatchCountSkipsSegment(p, s, k);
    var rest := s[k..];
    assert rest[MatchLength(p, rest)..] == RestAfterFirstMatch(p, s);
  }

  /** The first segment is the longest delimiter-free prefix of `s`. */
  lemma SplitFirst(p: Pattern, s: string)
    ensures var f := Split(p, s)[0];
      && |f| <= |s| && f == s[..|f|]
      && (|f| == |s| || IsDelimiter(p, s[|f|]))
  {
  }

  /** The text of every match, in order: what `split` drops between the
      segments. */
  function Separators(p: Pattern, s: string): (seps: seq<string>)
    decreases |s|
  {
    if SegmentEnd(p, s) == |s| then []
    else [FirstMatch(p, s)] + Separators(p, RestAfterFirstMatch(p, s))
  }

  /** The text of the first match in `s`. */
  function FirstMatch(p: Pattern, s: string): string
    requires SegmentEnd(p, s) < |s|
  {
    var k := SegmentEnd(p, s);
    s[k..k + MatchLength(p, s[k..])]
  }

  /** `m` is exactly one match of the pattern. */
  ghost predicate IsMatch(p: Pattern, m: string) {
    m != [] && IsDelimiter(p, m[0]) && MatchLength(p, m) == |m|
  }

  /** Segments joined with the separators between them. */
  function Interleave(parts: seq<string>, seps: seq<string>): string
    requires |parts| == |seps| + 1
    decreases |seps|
  {
    if seps == [] then parts[0] else parts[0] + seps[0] + Interleave(parts[1..], seps[1..])
  }

  /** The segments of `split`, rejoined with the matches between them, give
      back the input; every separator is one match, and there are as many
      as `match` counts. */
  lemma {:induction false} SplitRejoins(p: Pattern, s: string)
    ensures |Split(p, s)| == |Separators(p, s)| + 1
    ensures Interleave(Split(p, s), Separators(p, s)) == s
    ensures AllMatches(p, Separators(p, s))
    ensures MatchCount(p, s) == |Separators(p, s)|
    decreases |s|
  {
    SplitCount(p, s);
    var k := SegmentEnd(p, s);
    if k < |s| {
      var rest := RestAfterFirstMatch(p, s);
      SplitRejoins(p, rest);
      var e := SeparatorsStep(p, s);
      var parts, seps := Split(p, s), Separators(p, s);
      var restParts, restSeps := Split(p, rest), Separators(p, rest);
      assert parts == [s[..k]] + restParts;
      assert seps == [s[k..e]] + restSeps;
      JoinStep(s, k, e, parts, seps, restParts, restSeps);
      AllMatchesCons(p, s[k..e], restSeps);
    } else {
      assert Split(p, s) == [s];
    }
  }

  /** Every separator is exactly one match. */
  ghost predicate AllMatches(p: Pattern, seps: seq<string>) {
    forall i :: 0 <= i < |seps| ==> IsMatch(p, seps[i])
  }

  lemma AllMatchesCons(p: Pattern, m: string, seps: seq<string>)
    requires IsMatch(p, m) && AllMatches(p, seps)
    ensures AllMatches(p, [m] + seps)
  {
    assert forall i :: 0 < i <= |seps| ==> ([m] + seps)[i] == seps[i - 1];
  }

  /** The first separator is the first match, which ends at `e`, where the
      remainder starts; the other separators are the remainder's. */
  lemma SeparatorsStep(p: Pattern, s: string) returns (e: nat)
    requires SegmentEnd(p, s) < |s|
    ensures var k := SegmentEnd(p, s);
      && k <= e <= |s| && IsMatch(p, s[k..e])
      && RestAfterFirstMatch(p, s) == s[e..]
      && Separators(p, s) == [s[k..e]] + Separators(p, RestAfterFirstMatch(p, s))
  {
    var k := SegmentEnd(p, s);
    var t := s[k..];
    var m := MatchLength(p, t);
    e := k + m;
    FirstMatchIsMatch(p, t);
    assert t[..m] == s[k..e];
  }

  /** Rejoining a first segment and separator in front of a rejoined
      remainder rebuilds the whole text. */
  lemma JoinStep(s: string, k: nat, e: nat, parts: seq<string>, seps: seq<string>,
                 restParts: seq<string>, restSeps: seq<string>)
    requires k <= e <= |s|
    requires |restParts| == |restSeps| + 1 && Interleave(restParts, restSeps) == s[e..]
    requires parts == [s[..k]] + restParts && seps == [s[k..e]] + restSeps
    ensures |parts| == |seps| + 1 && Interleave(parts, seps) == s
  {
    assert parts[1..] == restParts && seps[1..] == restSeps;
    ThreeSlices(s, k, e);
  }

  /** The match that starts a string is one match. */
  lemma FirstMatchIsMatch(p: Pattern, t: string)
    requires t != [] && IsDelimiter(p, t[0])
    ensures IsMatch(p, t[..MatchLength(p, t)])
  {
    var m := t[..MatchLength(p, t)];
    assert m[0] == t[0];
    if MatchLength(p, t) == 2 {
      assert m[1] == t[1];
    }
  }

  lemma ThreeSlices(s: string, k: nat, e: nat)
    requires k <= e <= |s|
    ensures s == s[..k] + s[k..e] + s[e..]
  {
  }

  /** The last element of a non-empty sequence of segments. */
  function Last(parts: seq<string>): string
    requires |parts| >= 1
  {
    parts[|parts| - 1]
  }

  /** `b` is a suffix of `s` that reaches back to a delimiter or to the start. */
  ghost predicate IsMaximalSuffix(p: Pattern, s: string, b: string) {
    && |b| <= |s| && b == s[|s| - |b|..]
    && (|b| == |s| || IsDelimiter(p, s[|s| - |b| - 1]))
  }

  /** A maximal suffix of the text after a delimiter is a maximal suffix of
      the whole text. */
  lemma MaximalSuffixAfterDelimiter(p: Pattern, s: string, k: nat, b: string)
    requires 0 < k <= |s| && IsDelimiter(p, s[k - 1])
    requires IsMaximalSuffix(p, s[k..], b)
    ensures IsMaximalSuffix(p, s, b)
  {
    var rest := s[k..];
    assert s[|s| - |b|..] == rest[|rest| - |b|..];
    if |b| < |rest| {
      assert s[|s| - |b| - 1] == rest[|rest| - |b| - 1];
    }
  }

  /** The remainder of `s` after its first segment and the match that ends it. */
  function RestAfterFirstMatch(p: Pattern, s: string): (rest: string)
    requires SegmentEnd(p, s) < |s|
    ensures |rest| < |s|
    ensures Split(p, s) == [s[..SegmentEnd(p, s)]] + Split(p, rest)
  {
    var k := SegmentEnd(p, s);
    s[k + MatchLength(p, s[k..])..]
  }

  /** The first match ends with a delimiter character, right before the
      remainder. */
  lemma FirstMatchEnd(p: Pattern, s: string) returns (e: nat)
    requires SegmentEnd(p, s) < |s|
    ensures 0 < e <= |s| && IsDelimiter(p, s[e - 1])
    ensures RestAfterFirstMatch(p, s) == s[e..]
  {
    var k := SegmentEnd(p, s);
    var m := MatchLength(p, s[k..]);
    assert s[k + m - 1] == s[k..][m - 1];
    e := k + m;
  }

  /** One unfolding of `SplitLast`: when `s` holds a match, its last segment
      is the last segment of the remainder after the first match. */
  lemma {:induction false} SplitLastStep(p: Pattern, s: string)
    requires SegmentEnd(p, s) < |s|
    requires IsMaximalSuffix(p, RestAfterFirstMatch(p, s), Last(Split(p, RestAfterFirstMatch(p, s))))
    ensures IsMaximalSuffix(p, s, Last(Split(p, s)))
  {
    var parts := Split(p, RestAfterFirstMatch(p, s));
    var b := Last(parts);
    LastOfCons(s[..SegmentEnd(p, s)], parts);
    var e := FirstMatchEnd(p, s);
    MaximalSuffixAfterDelimiter(p, s, e, b);
  }

  lemma LastOfCons(x: string, parts: seq<string>)
    requires |parts| >= 1
    ensures Last([x] + parts) == Last(parts)
  {
  }

  /** The last segment is the longest delimiter-free suffix of `s`. */
  lemma {:induction false} SplitLast(p: Pattern, s: string)
    ensures IsMaximalSuffix(p, s, Last(Split(p, s)))
    decreases |s|
  {
    if SegmentEnd(p, s) < |s| {
      SplitLast(p, RestAfterFirstMatch(p, s));
      SplitLastStep(p, s);
    } else {
      assert s[0..] == s;
    }
  }
}

=== FILE: tokenizer.dfy ===
/** The tokenizer (`setSearchStr` with the `setTargetStr` callback): the word
    under the caret is the last delimiter-separated segment before the caret
    joined to the first segment after it. */
module Tokenizer {
  import opened JsString
  import opened RegexSplit

  /** The word under the caret, split at the caret. */
  datatype Token = Token(before: string, after: string) {
    /** `target_str`: the text the matcher searches for. */
    function Text(): string {
      before + after
    }
  }

  /** The source's way to take the text after the caret: remove the first
      occurrence of the text before the caret. That occurrence is the one at
      index 0, so what remains is the suffix from the caret on. */
  function AfterCaret(value: string, caret: nat): (r: string)
    requires caret <= |value|
    ensures r == value[caret..]
  {
    RemoveFirstOfPrefix(value, caret);
    RemoveFirst(value, value[..caret])
  }

  /** The `before` half of a token: delimiter-free text that ends at the
      caret and reaches back to a delimiter or the start of the buffer. */
  ghost predicate IsBeforeAt(value: string, caret: nat, b: string)
    requires caret <= |value|
  {
    && |b| <= caret && b == value[caret - |b|..caret]
    && NoDelimiter(TokenDelimiters, b)
    && (|b| == caret || IsDelimiter(TokenDelimiters, value[caret - |b| - 1]))
  }

  /** The `after` half of a token: delimiter-free text that starts at the
      caret and reaches forward to a delimiter or the end of the buffer. */
  ghost predicate IsAfterAt(value: string, caret: nat, a: string)
    requires caret <= |value|
  {
    && caret + |a| <= |value| && a == value[caret..caret + |a|]
    && NoDelimiter(TokenDelimiters, a)
    && (caret + |a| == |value| || IsDelimiter(TokenDelimiters, value[caret + |a|]))
  }

  /** The characterisation of the token under the caret. */
  ghost predicate IsTokenAt(value: string, caret: nat, t: Token)
    requires caret <= |value|
  {
    IsBeforeAt(value, caret, t.before) && IsAfterAt(value, caret, t.after)
  }

  /** The last segment before the caret is the `before` half of a token. */
  lemma {:induction false} LastSegmentBeforeCaret(value: string, caret: nat)
    requires caret <= |value|
    ensures IsBeforeAt(value, caret, Last(Split(TokenDelimiters, value[..caret])))
  {
    var prefix := value[..caret];
    SplitLast(TokenDelimiters, prefix);
    var b := Last(Split(TokenDelimiters, prefix));
    assert prefix[caret - |b|..] == value[caret - |b|..caret];
    if |b| < caret {
      assert prefix[caret - |b| - 1] == value[caret - |b| - 1];
    }
  }

  /** The first segment after the caret is the `after` half of a token. */
  lemma {:induction false} FirstSegmentAfterCaret(value: string, caret: nat)
    requires caret <= |value|
    ensures IsAfterAt(value, caret, Split(TokenDelimiters, value[caret..])[0])
  {
    var suffix := value[caret..];
    SplitFirst(TokenDelimiters, suffix);
    var a := Split(TokenDelimiters, suffix)[0];
    assert suffix[..|a|] == value[caret..caret + |a|];
    if caret + |a| < |value| {
      assert suffix[|a|] == value[caret + |a|];
    }
  }

  /** The half of the token before the caret: the last segment of the text
      before the caret, cut at every delimiter. */
  function BeforePart(value: string, caret: nat): (b: string)
    requires caret <= |value|
    ensures |b| <= caret && b == value[caret - |b|..caret]
  {
    LastSegmentBeforeCaret(value, caret);
    Last(Split(TokenDelimiters, value[..caret]))
  }

  /** The half of the token after the caret: the first segment of the text
      after the caret. */
  function AfterPart(value: string, caret: nat): (a: string)
    requires caret <= |value|
    ensures caret + |a| <= |value| && a == value[caret..caret + |a|]
  {
    FirstSegmentAfterCaret(value, caret);
    Split(TokenDelimiters, value[caret..])[0]
  }

  /** The source reaches the text after the caret by removing the text
      before it; splitting that text gives the same first segment. */
  lemma AfterPartOfRemoval(value: string, caret: nat)
    requires caret <= |value|
    ensures AfterPart(value, caret) == Split(TokenDelimiters, AfterCaret(value, caret))[0]
  {
  }

  /** `setSearchStr(setTargetStr)`: split the text before the caret and the
      text after it at every delimiter, and take the last segment of the
      first and the first segment of the second. */
  function Tokenize(value: string, caret: nat): (t: Token)
    requires caret <= |value|
    ensures |t.before| <= caret && t.before == value[caret - |t.before|..caret]
    ensures caret + |t.after| <= |value| && t.after == value[caret..caret + |t.after|]
  {
    Token(BeforePart(value, caret), AfterPart(value, caret))
  }

  /** The token `Tokenize` computes is the word under the caret. */
  lemma TokenizeIsToken(value: string, caret: nat)
    requires caret <= |value|
    ensures IsTokenAt(value, caret, Tokenize(value, caret))
  {
    var t := Tokenize(value, caret);
    assert t.before == Last(Split(TokenDelimiters, value[..caret]));
    LastSegmentBeforeCaret(value, caret);
    FirstSegmentAfterCaret(value, caret);
  }

  /** The text of the token is one contiguous slice of the buffer around the
      caret. */
  lemma TokenTextIsSlice(value: string, caret: nat)
    requires caret <= |value|
    ensures var t := Tokenize(value, caret);
      t.Text() == value[caret - |t.before|..caret + |t.after|]
  {
    var t := Tokenize(value, caret);
    var b, a := t.before, t.after;
    JoinAtCaret(value, caret, b, a);
    assert t.Text() == b + a;
  }

  /** Text ending at the caret followed by text starting at it is one
      contiguous slice of the buffer. */
  lemma JoinAtCaret(value: string, caret: nat, b: string, a: string)
    requires caret <= |value|
    requires |b| <= caret && b == value[caret - |b|..caret]
    requires caret + |a| <= |value| && a == value[caret..caret + |a|]
    ensures b + a == value[caret - |b|..caret + |a|]
  {
  }

  /** A delimiter right before the caret leaves nothing of the token before
      it; a delimiter right at the caret leaves nothing after it. */
  lemma DelimiterAtCaretEmptiesToken(value: string, caret: nat)
    requires caret <= |value|
    ensures caret > 0 && IsDelimiter(TokenDelimiters, value[caret - 1]) ==> Tokenize(value, caret).before == []
    ensures caret < |value| && IsDelimiter(TokenDelimiters, value[caret]) ==> Tokenize(value, caret).after == []
  {
    var t := Tokenize(value, caret);
    TokenizeIsToken(value, caret);
    if t.before != [] {
      assert t.before[|t.before| - 1] == value[caret - 1];
    }
    if t.after != [] {
      assert t.after[0] == value[caret];
    }
  }

  /** Two `before` halves at the same caret are the same text: the shorter
      one would end at a delimiter inside the longer one. */
  lemma BeforeIsUnique(value: string, caret: nat, b1: string, b2: string)
    requires caret <= |value|
    requires IsBeforeAt(value, caret, b1) && IsBeforeAt(value, caret, b2)
    ensures b1 == b2
  {
    forall j | caret - |b1| <= j < caret ensures !IsDelimiter(TokenDelimiters, value[j]) {
      assert b1[j - (caret - |b1|)] == value[j];
    }
    forall j | caret - |b2| <= j < caret ensures !IsDelimiter(TokenDelimiters, value[j]) {
      assert b2[j - (caret - |b2|)] == value[j];
    }
  }

  /** Two `after` halves at the same caret are the same text: the shorter
      one would stop at a delimiter inside the longer one. */
  lemma AfterIsUnique(value: string, caret: nat, a1: string, a2: string)
    requires caret <= |value|
    requires IsAfterAt(value, caret, a1) && IsAfterAt(value, caret, a2)
    ensures a1 == a2
  {
    forall j | caret <= j < caret + |a1| ensures !IsDelimiter(TokenDelimiters, value[j]) {
      assert a1[j - caret] == value[j];
    }
    forall j | caret <= j < caret + |a2| ensures !IsDelimiter(TokenDelimiters, value[j]) {
      assert a2[j - caret] == value[j];
    }
  }

  /** At most one token satisfies the characterisation, so `Tokenize` is
      fully determined by it. */
  lemma TokenIsUnique(value: string, caret: nat, t1: Token, t2: Token)
    requires caret <= |value|
    requires IsTokenAt(value, caret, t1) && IsTokenAt(value, caret, t2)
    ensures t1 == t2
  {
    BeforeIsUnique(value, caret, t1.before, t2.before);
    AfterIsUnique(value, caret, t1.after, t2.after);
  }

  /** A whole delimiter-free word that ends at the caret, followed by a
      delimiter or by the end of the text, is the token. */
  lemma WordBeforeDelimiterIsToken(value: string, caret: nat, word: string)
    requires |word| <= caret <= |value|
    requires value[caret - |word|..caret] == word && NoDelimiter(TokenDelimiters, word)
    requires |word| == caret || IsDelimiter(TokenDelimiters, value[caret - |word| - 1])
    requires caret == |value| || IsDelimiter(TokenDelimiters, value[caret])
    ensures Tokenize(value, caret) == Token(word, "")
  {
    var t := Tokenize(value, caret);
    TokenizeIsToken(value, caret);
    assert IsBeforeAt(value, caret, word);
    assert IsAfterAt(value, caret, "");
    BeforeIsUnique(value, caret, t.before, word);
    AfterIsUnique(value, caret, t.after, "");
  }

  /** `"hello world"` with the caret after `hello`: the token is `hello`. */
  lemma TokenOfHelloWorld()
    ensures Tokenize("hello world", 5) == Token("hello", "")
  {
    var value := "hello world";
    assert value[0..5] == "hello";
    WordBeforeDelimiterIsToken(value, 5, "hello");
  }

  /** `"foo,bar"` with the caret right after the comma: nothing of the token
      lies before the caret. */
  lemma TokenAfterComma()
    ensures Tokenize("foo,bar", 4).before == ""
  {
    assert IsDelimiter(TokenDelimiters, "foo,bar"[3]);
    DelimiterAtCaretEmptiesToken("foo,bar", 4);
  }
}

=== FILE: wrappers.dfy ===
/** Small shared datatypes. */
module Wrappers {

  /** An optional value. In this model `None` stands for JavaScript's
      `undefined`, the result of indexing a string past its end. */
  datatype Option<+T> = None | Some(value: T)
}
